=== FILE: README.md ===
# Panel reseller backend: a Dafny model of the request handler

The system is one HTTP endpoint (`api/panels.js`). It keeps user accounts in
a document store: a `users` collection keyed by email, and under each user a
`panels` subcollection keyed by the panel's server id. It sells "panels"
(server instances) that an external provisioning service creates and
deletes. A request names an `action`. A dispatch table maps the action to a
handler. Each handler checks the HTTP method, validates its fields, and calls
one of the account or panel functions.

This project models that business logic over an in-memory store:

- `Store.Store` holds two maps. `users` maps an email to a `User` (password,
  role, money, expireAt). `panels` maps an email to that user's panels, keyed
  by the decimal text of the server id. They are separate maps because a
  Firestore subcollection outlives the deletion of its parent document.
- Time is a natural number `now`, in milliseconds since the epoch.
- Request fields are a subset of JavaScript values (`JsValues.Field`):
  undefined, null, integers and strings. Over that subset the model spells
  out JavaScript truthiness, loose null checks, `Number(x)` for integer
  text, and `String(n)`.
- The provisioning service's answers are parameters: `Http.Provision` for
  create, a boolean for delete, `Http.HealthProbe` for the health check.
- Every handler is a pure function returning the response and the new
  store (`Http.Reply`); the account functions return a `Common.Result`.
  The bulk delete `Panels.DeleteAllPanels` is a method with loops, built
  from the methods `Panels.ListPanelKeys`, `Panels.DeleteInBatches` and
  `Panels.ClearOwner`. It is proved equal to the functional
  `Panels.ClearPanels` and to the ghost count `Panels.PanelTotal`.
- `Router.Dispatch` is the whole handler. It is ghost only because the
  deleted count is a sum over a map.

Modules: `Common` (Option, Result, failures), `JsValues`, `Store` (entities,
constants, store invariants), `Ledger` (account functions), `Panels` (panel
lookup and bulk delete), `Http` (request, response, oracles), `UserActions`
and `PanelActions` (one function per handler), `Router` (dispatch).

## Quirks of the handler the model keeps

- **`panel_create` cannot run as deployed.** The handler is declared as
  `async (req, res) =>` but the table calls it with no arguments. Reading
  `req.method` throws, and the outer catch answers 500 to every
  `panel_create` request (`Router.PanelCreateUnreachable`). The body is still
  modelled on its own, as `PanelActions.PanelCreate`. Because of this,
  `Router.Dispatch` never answers 402, 403 or 409.
- **A missing user gives 500, not 404.** `deleteUser`, `getUser` and
  `updateUserRole` throw when the user is missing, so their callers' 404
  branches are dead (`Router.MissingUserIs500`). A non-admin calling
  `panel_delete_all` gets 500, not 403 (`Router.NonAdminDeleteAllIs500`).
- **A non-string email gives 500.** The store rejects a non-string document
  id, so the handler throws and answers 500. In `findPanelOwner` this is a
  thrown error, not the shared `null`.
- **`money: null` on update.** It passes the router's `money != null` check
  and is written as null, because the function tests `money !== undefined`.
  The reply then shows the old balance, because of `??`
  (`Ledger.NullMoneyReportsStaleBalance`).
- **Expiry edge cases.** An existing account with no `expireAt`, updated
  without positive `activeDays`, throws when the old expiry is read back
  (500). A stored expiry of exactly 0 is falsy, so it counts as `now` when
  extending. In `panel_create`, a missing expiry is an invalid date and
  never counts as expired.
- **A returned serverId that is already stored overwrites that panel.**
  `panel_create` does not check whether `String(serverId)` is already a
  panel key of the user; the store write replaces the old panel document,
  so deleting the new panel afterwards leaves the old one gone too
  (`PanelActions.CreateOverwritesStoredPanel`).
- **`user_info_all` 404.** The "no users" answer can only happen when every
  user document's `email` field is empty. In a well-formed store the
  requester is always listed (`UserActions.UserInfoAll`,
  `Router.EmailListNever404`).

## Model

| member | source | states |
|---|---|---|
| Ledger.AddOrUpdateUser | api/panels.js:107-167 | A new account needs a non-empty password and positive activeDays. It then gets expiry now + days·86400000, role "user" and money 0 by default, and the tag `added`. An existing account's expiry becomes max(stored, now) + days·86400000, which is strictly later than both. Without positive days the expiry is never written. Supplied money replaces the balance, null included. For an existing account the tag is `updated`, or `unchanged` exactly when nothing is supplied, and then the store is untouched and the stored fields are echoed. Only this one user document changes. |
| Ledger.GetUser | api/panels.js:168-197 | Succeeds exactly when the user exists. It returns the stored email, password and expiry, the stored role or "user" when that is missing, the stored money or 0 when that is missing, and the user's panels. |
| Ledger.DeleteUser | api/panels.js:198-211 | Succeeds exactly when the user exists. It removes only the user document and leaves its panels in place. |
| Ledger.GetAllUserEmails | api/panels.js:212-227 | Succeeds exactly when the requester exists and has role admin. It lists every non-empty stored email field, and nothing that is not some user's email field. |
| Ledger.UpdateUserRole | api/panels.js:228-241 | Succeeds exactly when the user exists. It overwrites only that user's role, with any string. |
| Ledger.CheckAdmin | api/panels.js:242-255 | Passes exactly when the user exists and has role admin. |
| Ledger.UpsertThenGet | api/panels.js:146-154 | Unless money was sent as null, reading an account back after an upsert gives the expiry, money and role that the upsert reported. |
| Ledger.NullMoneyReportsStaleBalance | api/panels.js:143-152 | For every existing account that has an expiry or is given positive days, an update with money null succeeds and reports the previous balance, while the stored balance becomes null and reads back as 0. |
| Ledger.UpsertNeverShortensExpiry | api/panels.js:136-144 | A successful upsert never lowers a stored expiry. |
| Ledger.UpsertPreservesInvariants | api/panels.js:116-147 | An upsert keeps every user stored under its own email. With non-negative money it keeps all balances non-negative. |
| Ledger.DeleteThenGet | api/panels.js:198-211 | After a delete, the user is not found, but the user's panels are still there. |
| Ledger.RoleThenCheckAdmin | api/panels.js:228-255 | After a role change, the admin check passes exactly when the new role is "admin". |
| Ledger.AllEmailsAreTheKeys | api/panels.js:220-223 | In a well-formed store, the email list is exactly the set of user keys, so it includes the requester. |
| Panels.FindPanelOwner | api/panels.js:63-104 | Finds an owner exactly when the email is a non-empty string, both ids are numeric, the user exists, a panel is stored at `String(serverId)`, and that panel's userId equals the given one. The owner returned is the input triple. |
| Panels.FindPanelOwnerCollapses | api/panels.js:76-95 | A missing user, a missing panel and a userId mismatch all give the same `null`. |
| Store.PanelsOf | api/panels.js:44-62 | `getCurrentPanels`: returns exactly the panel documents stored under the email, each under its own id. When there are none it returns an empty collection, even if no user document exists. |
| Panels.ClearPanels | api/panels.js:256-281 | After a bulk delete every user's panels are empty and the users are kept. Panels under emails with no user document are not visited. |
| Panels.PanelTotalRemove | api/panels.js:264-277 | The running total does not depend on the order in which users are visited. |
| Panels.ListPanelKeys | api/panels.js:267-267 | A panels snapshot lists each stored panel key, and has as many entries as there are panels. |
| Panels.ClearOwner | api/panels.js:264-277 | One user's pass empties exactly that user's panel map and leaves every other entry as it was. It counts exactly the panels the user had. Every batch it commits belongs to that user, holds 1 to 500 of its panels, and all but the last are full; together the batches list each of the user's panels exactly once. |
| Panels.DeleteInBatches | api/panels.js:270-276 | The batches for one user are the slices [i, i+500): each holds between 1 and 500 keys, every batch but the last holds exactly 500, and concatenated they give exactly the snapshot. The per-user count is the snapshot size, and the user's panel map ends empty. |
| Panels.DeleteAllPanels | api/panels.js:256-281 | The final store is `ClearPanels` of the initial one. `deletedCount` is the total number of panels under existing users, which is 0 when there are no users. `deletedCount` is also the sum of the batch sizes. Each batch holds 1 to 500 keys of one user's panels. |
| Store.SetMoney | api/panels.js:413-413 | Updating a user's money changes that field of that one user document only: the other fields, every other user and every panel are kept. |
| Store.SetMoneyUnchanged | api/panels.js:417-429 | Writing back the balance a user already has leaves the store unchanged. |
| JsValues.ToNumber | api/panels.js:463-468 | `Number()` maps a number to itself, null to 0 and undefined to NaN. For a string it gives `JsValues.ParseInt` of the text. |
| JsValues.ParseInt | api/panels.js:463-468 | `Number()` on a string: a string of decimal digits (the empty string included) gives its value, a sign followed by digits gives the signed value, and every other string gives NaN. |
| JsValues.IdKey | api/panels.js:433-433 | `String(n)` of a server id is its canonical decimal text: a minus sign exactly when the id is negative, then digits with no plus sign and no leading zero (0 is "0"). |
| JsValues.TextOf | api/panels.js:141-142 | A password or role field is written only when truthy: its text is non-empty exactly when the field is truthy, and a string field keeps its own text. |
| JsValues.DigitsRoundTrip | api/panels.js:84-84 | Reading back the decimal rendering of a natural number gives the number. |
| JsValues.ParseIdKey | api/panels.js:84-84 | `Number(String(n)) == n`, so a panel key parses back to its server id. |
| JsValues.IdKeyInjective | api/panels.js:433-433 | Distinct server ids are stored under distinct keys. |
| UserActions.UserAdd | api/panels.js:295-321 | A wrong method gives 405 before any field is read. Status 400 happens exactly when the email is falsy, or activeDays is given but is not a positive number, or money is given but is not a non-negative number. Status 200 returns the upsert's view and store, and a valid POST gets 200 whenever the upsert returns. Every other answer leaves the store unchanged. Store invariants are preserved. Every error answer carries only a message. |
| UserActions.UserDelete | api/panels.js:322-331 | A wrong method, and only that, gives 405. A DELETE with a falsy email, and only that, gives 400. Status 200 happens exactly for a DELETE whose email names an existing user. It removes that user and keeps the panels. The answer is never 404. Every error answer carries only a message. |
| UserActions.UserInfo | api/panels.js:332-341 | 405 happens exactly for a wrong method, 400 exactly for a GET with a falsy email. Status 200 happens exactly for a GET whose email names an existing user, and returns that user's profile. The store is never changed, and the answer is never 404. Every error answer carries only a message. |
| UserActions.UserInfoAll | api/panels.js:342-349 | 405 happens exactly for a wrong method, 400 exactly for a GET with a falsy email, and 404 exactly for an admin whose list is empty. Status 200 happens exactly for a GET by an admin requester whose list is non-empty, and then the payload is that listing. In a well-formed store the list is all user keys and the answer is never 404. Every error answer, the non-admin's 500 included, carries only a message, never the list. |
| UserActions.UserRole | api/panels.js:350-359 | 405 happens exactly for a wrong method, 400 exactly for a POST with a falsy email or role. Status 200 happens exactly for a POST with an existing user's email and a truthy role. Only that role changes. The answer is never 404. Every error answer carries only a message. |
| PanelActions.PanelHealth | api/panels.js:361-384 | A GET returns the probe's flags. When the probe fails it returns active false and maintenance true, never an error. The 405 carries only a message. |
| PanelActions.PanelCreate | api/panels.js:385-451 | 405 happens exactly for a wrong method. A POST with a falsy email, username, password or ram gives 400, and only that does. A valid request for an unknown user gives 404. An expired account gets 403. A non-admin with missing money or money below 3000 gets 402 with required 3000 and current money or 0. A duplicate username gets 409. Status 200 happens exactly when a serverId is returned; on 200 a non-admin's money drops by exactly 3000, an admin's money is unchanged, and the panel is stored at `String(serverId)`. Past every gate, a thrown provisioning call or a body without a serverId gives 500. Every non-200 answer, including 409, a missing serverId and a thrown provisioning error, leaves the store, balances included, exactly as before. Every error answer other than 402 carries only a message. |
| PanelActions.PanelDelete | api/panels.js:452-491 | 405 happens exactly for a wrong method. 400 happens exactly for a DELETE whose email, userId or serverId is falsy, or whose ids are not numbers. A DELETE without a body, or with a non-string email and valid ids, is a thrown error: 500 with the store unchanged. When ownership holds and the remote delete fails, the answer is 500. Status 200 happens exactly when ownership holds and the remote delete succeeds. Then the reply carries only the deletion message and only that panel is removed. When ownership fails for any reason the answer is 404 with the store unchanged. The store changes only if the remote delete succeeded. Every error answer carries only a message. |
| PanelActions.PanelDeleteAll | api/panels.js:492-515 | 405 happens exactly for a wrong method, 400 exactly for a DELETE with a falsy email. Status 200 happens exactly for an admin requester. It reports the number of panels under existing users and empties those users' panels; subcollections without a user document are neither counted nor deleted. A non-admin gets 500, never 403. Every error answer carries only a message. |
| PanelActions.PanelCurrent | api/panels.js:516-523 | 405 happens exactly for a wrong method, 400 exactly for a GET with a falsy email. A GET with a string email returns that email's panels, possibly none. The store is never changed. Every error answer carries only a message. |
| PanelActions.CreateThenFind | api/panels.js:433-436 | A panel just created, whose returned userId is numeric, passes the ownership check for its own email, userId and serverId. |
| PanelActions.CreateKeepsUsernamesUnique | api/panels.js:417-424 | When a user's panels have distinct usernames and the service stores the username it was asked for, a successful creation keeps them distinct, because a duplicate is refused with 409 first. |
| PanelActions.CreateOverwritesStoredPanel | api/panels.js:433-436 | A server id that is already a panel key of the user is not refused: the new panel replaces the stored one under that key, and the user keeps the same number of panels. |
| PanelActions.CreateThenDelete | api/panels.js:470-483 | Deleting, by its ids, a panel just created under a key not already stored and with a non-zero numeric userId gives the user back exactly the panels they had before. |
| Router.Dispatch | api/panels.js:283-536 | A missing action gives 400. An unknown action gives 404 naming it. A non-200 answer never changes the store. The status is always one of 200, 400, 404, 405 or 500. Well-formedness, non-negative balances and unique usernames within each user's panels are preserved. Every error answer carries only a message, except the unknown-action 404, which names the action. |
| Router.UserRoute | api/panels.js:295-359 | The account half of the table: failures leave the store unchanged, the status is one of 200, 400, 404, 405 or 500, and the store invariants are preserved. Every error answer carries only a message. |
| Router.PanelRoute | api/panels.js:361-528 | The panel half of the table, with `panel_create` answering 500 because it is called without its request: no 402, 403 or 409 is ever answered, failures leave the store unchanged, and the store invariants are preserved. Every error answer carries only a message. |
| Router.DispatchRuns | api/panels.js:293-531 | Every known action other than `panel_create` runs its own handler: the endpoint's reply is exactly that handler's reply for the same request, store and environment. |
| Router.MethodCheckedFirst | api/panels.js:293-524 | Every reachable action answers 405 to a wrong method, with the store unchanged, whatever the fields hold. |
| Router.PanelCreateUnreachable | api/panels.js:527-534 | `panel_create` answers 500 to every request and changes nothing. |
| Router.MissingUserIs500 | api/panels.js:322-359 | For user_delete, user_info and user_role, a missing user gives 500, not the 404 the handlers mean to send. |
| Router.NonAdminDeleteAllIs500 | api/panels.js:503-514 | A non-admin calling panel_delete_all gets 500 and nothing is deleted. |
| Router.AdminDeleteAll | api/panels.js:503-509 | An admin calling panel_delete_all gets 200 and the number of panels under existing users. Every user's panels are emptied and the users are kept. |
| Router.EmailListNever404 | api/panels.js:342-349 | In a well-formed store, user_info_all never answers 404. |

## Left out

- Firebase initialisation and environment configuration (lines 1-15): process setup, not behaviour.
- The network calls `createPanelAPI`, `deletePanelAPI` and the health GET, with their URLs, headers and the 10-second timeout. Only their outcomes are modelled, as parameters.
- Store timestamps: `serverTimestamp()` for `createdAt` and the Timestamp/Date conversions. Times are integer milliseconds, and `createdAt` is not stored.
- Error message texts and console logging. Responses carry a status and the kind of payload.
- Concurrency. The model handles one request at a time. In particular, the non-atomic read-then-update of money in `panel_create` is not modelled.
- Store failures: a throwing `update`, `delete` or `batch.commit()`. If a batch commit fails in `deleteAllPanels`, the error propagates as 500 and the partial count is lost. The compensating refund also swallows its own errors, and that is not modelled.
- Panels.DeleteAllPanels: the order in which the store lists users and panels is left open (an arbitrary choice). So the top-level contract says that batch sizes and containment hold and that the sizes add up to the total. The exact slicing and the per-user partition are stated in `Panels.DeleteInBatches` and `Panels.ClearOwner`.
- JavaScript number details. Only integers are modelled, so fractional `activeDays` and money, NaN, and `-0` are out.
- Boolean, array and object request fields (for example `userId: true`, which `Number()` turns into 1, or a repeated query key, which arrives as an array). A field is undefined, null, an integer or a string.
- The precision of JavaScript numbers. Integers are unbounded, whereas doubles are exact only up to 2^53 in magnitude, so `money - 3000` and the id comparisons are exact only in that range. `String(n)` switches to exponent form from 1e21 (`"1e+21"`), while `JsValues.IdKey` keeps writing every digit.
- `Number()` on string forms other than optionally signed decimal digits: surrounding whitespace, fractions with an integer value such as "1.0", exponent, hexadecimal, binary and octal forms, and "Infinity". `JsValues.ParseInt` treats all of them as NaN.
- A truthy non-string password or role is stored as its decimal text, and a non-string username never matches a stored one.
- Store document-id rules other than "must be a string", such as slashes or `__name__` ids.
- Action names that are inherited object properties (`constructor`, `toString`, ...). The model treats them as unknown actions (404).
- Request bodies that are not objects. A missing body is modelled, and makes the body-reading handlers answer 500.
- Passthrough fields of a provisioned panel other than `serverId`, `userId` and `username`, and the `ram` and `password` that are forwarded to the provisioning service.
- A stored `expireAt` of null. `new Date(null)` is the epoch, so `panel_create` would answer 403; the model has no null expiry (None is a missing field, which never expires there). The account functions never write a null expiry.
- Stored expiries beyond the store's Timestamp range (after year 9999), which would make the write throw.
- A `serverId` returned as a string. A truthy string such as "0" or "abc" would be stored under that text, and "012" under "012"; the model's ids are integers stored under their canonical decimal text, so such ids are outside it.
- Ledger.GetAllUserEmails: the result is a set, so two documents with the same `email` field appear once.

=== FILE: common.dfy ===
/** Wrappers shared by the whole model: an optional value, and the result of
    an account function that either returns a value or throws. Every thrown
    failure below reaches the router's outer catch and becomes HTTP 500. */
module Common {

  /** A field that may be missing from a document. */
  datatype Option<T> = None | Some(value: T)

  /** `x ?? fallback` (equally `x || fallback` for a field that is falsy
      only when missing). */
  function ValueOr<T>(x: Option<T>, fallback: T): T {
    if x.Some? then x.value else fallback
  }

  /** Why an account or store function threw. */
  datatype Failure =
    | MissingEmail        // no email supplied
    | MissingPassword     // new account without a password
    | InvalidActiveDays   // new account without a positive activeDays
    | MissingExpiry       // existing account has no expireAt to read back
    | UserNotFound        // no user document under the email
    | AdminNotFound       // the requesting admin has no user document
    | NotAdmin            // the requester's role is not "admin"

  datatype Result<+T> = Ok(value: T) | Err(failure: Failure)

  function Max(a: int, b: int): int {
    if a < b then b else a
  }
}

=== FILE: http.dfy ===
/** The request and response shapes of the single endpoint, and the
    outcomes of the calls to the provisioning service, which enter the
    model as parameters. */
module Http {
  import opened Common
  import opened JsValues
  import opened Store
  import opened Ledger

  type Fields = map<string, Field>

  /** `obj[name]`, undefined when the property is missing. */
  function Get(fields: Fields, name: string): Field {
    if name in fields then fields[name] else Absent
  }

  /** An inbound request; `verb` is the HTTP method. `body` is None when the request has no parsed
      body (so `req.body` is undefined); the query is always an object. */
  datatype Request = Request(verb: string, body: Option<Fields>, query: Fields)

  /** The JSON body of a response. Error bodies carry only a message,
      except the balance error and the unknown-action error. */
  datatype Payload =
    | ErrorBody
    | BalanceError(required: int, current: int)
    | UnknownAction(name: string)
    | UserSaved(user: UserView)
    | UserDeleted(email: Email)
    | UserProfile(profile: Profile)
    | EmailList(emails: set<string>)
    | RoleChanged(email: Email, role: string)
    | Health(active: bool, maintenance: bool)
    | PanelCreated(panel: Panel)
    | PanelDeleted
    | PanelsDeleted(deletedCount: nat)
    | PanelList(panels: PanelMap)

  datatype Response = Response(status: int, payload: Payload)

  function Error(status: int): Response {
    Response(status, ErrorBody)
  }

  /** A response together with the store it leaves behind. */
  datatype Reply = Reply(response: Response, store: Store)

  /** The health endpoint either answers with its two flags or fails
      (timeout, network error, non-2xx). */
  datatype HealthProbe = HealthUp(active: bool, maintenance: bool) | HealthDown

  /** What `createPanelAPI` does: returns a body (None for an empty one),
      or throws. */
  datatype Provision = Returned(data: Option<Panel>) | ProvisionThrew

  /** Everything a request sees beyond the store: the clock, the health
      probe's answer, and whether the remote delete call succeeds. */
  datatype Env = Env(now: nat, health: HealthProbe, remoteDeleteOk: bool)
}

=== FILE: jsvalues.dfy ===
/** The JavaScript values a request carries and the coercions the handler
    applies to them: truthiness (`!x`), loose null checks (`x != null`),
    `Number(x)` and `String(n)`. Only integer-valued numbers are modelled. */
module JsValues {
  import opened Common

  /** A field of a parsed JSON body or query string. */
  datatype Field = Absent | Null | Num(n: int) | Text(s: string)

  /** JavaScript truthiness: undefined, null, 0 and "" are falsy. */
  predicate Truthy(f: Field) {
    match f
    case Absent => false
    case Null => false
    case Num(n) => n != 0
    case Text(s) => s != ""
  }

  /** Loosely equal to null: null or undefined. */
  predicate Nullish(f: Field) {
    f.Absent? || f.Null?
  }

  predicate AllDigits(s: string) {
    forall i :: 0 <= i < |s| ==> '0' <= s[i] <= '9'
  }

  /** The value of a string of decimal digits (leading zeros allowed). */
  function DigitsValue(s: string): nat
    requires AllDigits(s)
    decreases |s|
  {
    if s == [] then 0
    else DigitsValue(s[..|s| - 1]) * 10 + (s[|s| - 1] as int - '0' as int)
  }

  function DigitChar(d: nat): char
    requires d < 10
  {
    ('0' as int + d) as char
  }

  /** The decimal rendering of a natural number, without leading zeros. */
  function DecimalDigits(n: nat): (r: string)
    ensures |r| > 0 && AllDigits(r)
    ensures n < 10 <==> |r| == 1
    ensures r[0] == '0' ==> n == 0
  {
    if n < 10 then [DigitChar(n)]
    else DecimalDigits(n / 10) + [DigitChar(n % 10)]
  }

  /** `String(n)` for an integer: the key a panel document is stored under. */
  function IdKey(n: int): (r: string)
    ensures r != ""
    ensures n < 0 <==> r[0] == '-'
    // The canonical text: no plus sign and no leading zero.
    ensures n >= 0 ==> AllDigits(r) && (r[0] == '0' ==> r == "0")
    ensures n < 0 ==> |r| > 1 && AllDigits(r[1..]) && r[1] != '0'
  {
    if n < 0 then "-" + DecimalDigits(-n) else DecimalDigits(n)
  }

  /** A sign followed by at least one decimal digit. */
  predicate Signed(s: string) {
    |s| > 1 && (s[0] == '-' || s[0] == '+') && AllDigits(s[1..])
  }

  /** `Number(s)` on a string, for optionally signed decimal integers; the
      empty string is 0 and anything else is NaN (None). */
  function ParseInt(s: string): (r: Option<int>)
    ensures AllDigits(s) ==> r == Some(DigitsValue(s))
    ensures Signed(s) ==> r == Some(if s[0] == '-' then -(DigitsValue(s[1..]) as int) else DigitsValue(s[1..]))
    ensures r.Some? <==> AllDigits(s) || Signed(s)
  {
    if s == "" then Some(0)
    else if s[0] == '-' || s[0] == '+' then
      var digits := s[1..];
      if digits != "" && AllDigits(digits) then
        var v: int := DigitsValue(digits);
        Some(if s[0] == '-' then -v else v)
      else None
    else if AllDigits(s) then Some(DigitsValue(s))
    else None
  }

  /** `Number(f)`; None stands for NaN. */
  function ToNumber(f: Field): (r: Option<int>)
    ensures f.Num? ==> r == Some(f.n)
    ensures f.Absent? ==> r.None?
    ensures f.Null? ==> r == Some(0)
    ensures f.Text? ==> r == ParseInt(f.s)
  {
    match f
    case Absent => None
    case Null => Some(0)
    case Num(n) => Some(n)
    case Text(s) => ParseInt(s)
  }

  /** The text a field is stored or compared as; "" for every falsy field.
      Numbers are kept as their decimal text. */
  function TextOf(f: Field): (r: string)
    ensures r != "" <==> Truthy(f)
    ensures f.Text? ==> r == f.s
  {
    match f
    case Text(s) => s
    case Num(n) => if n == 0 then "" else IdKey(n)
    case _ => ""
  }

  /** The property name a value is coerced to when it indexes an object. */
  function KeyText(f: Field): string {
    match f
    case Absent => "undefined"
    case Null => "null"
    case Num(n) => IdKey(n)
    case Text(s) => s
  }

  lemma {:induction false} DigitsRoundTrip(n: nat)
    ensures DigitsValue(DecimalDigits(n)) == n
  {
    if n >= 10 {
      var d := DecimalDigits(n);
      DigitsRoundTrip(n / 10);
      assert d[..|d| - 1] == DecimalDigits(n / 10);
      assert d[|d| - 1] == DigitChar(n % 10);
    }
  }

  lemma ParseNonNegativeKey(n: nat)
    ensures ParseInt(DecimalDigits(n)) == Some(n)
  {
    DigitsRoundTrip(n);
  }

  lemma ParseNegativeKey(n: nat)
    requires n > 0
    ensures ParseInt("-" + DecimalDigits(n)) == Some(-(n as int))
  {
    var k := "-" + DecimalDigits(n);
    assert k[1..] == DecimalDigits(n);
    assert Signed(k);
    DigitsRoundTrip(n);
  }

  /** `Number(String(n)) == n`: a panel key parses back to its server id. */
  lemma ParseIdKey(n: int)
    ensures ParseInt(IdKey(n)) == Some(n)
  {
    if n < 0 {
      ParseNegativeKey(-n);
    } else {
      ParseNonNegativeKey(n);
    }
  }

  /** Distinct server ids are stored under distinct keys. */
  lemma IdKeyInjective(a: int, b: int)
    ensures IdKey(a) == IdKey(b) <==> a == b
  {
    if IdKey(a) == IdKey(b) {
      ParseIdKey(a);
      ParseIdKey(b);
    }
  }
}

=== FILE: ledger.dfy ===
/** The account functions of the handler: `addOrUpdateUser`, `getUser`,
    `deleteUser`, `getAllUserEmails`, `updateUserRole` and `checkAdmin`.
    Each is a pure function from the store (and the clock `now`, in
    milliseconds) to a result and, where it writes, the new store. */
module Ledger {
  import opened Common
  import opened Store

  /** The `money` argument of `addOrUpdateUser`: JavaScript tells
      undefined (not supplied) apart from null. */
  datatype MoneyArg = Omitted | NullMoney | Amount(amount: int)

  datatype UpsertAction = Added | Updated | Unchanged

  /** What `addOrUpdateUser` returns to the router. */
  datatype UserView = UserView(
    email: Email,
    expireAt: int,
    role: string,
    money: Option<int>,
    action: UpsertAction)

  datatype Upsert = Upsert(view: UserView, store: Store)

  /** What `getUser` returns: the profile with defaults filled in, and the
      user's panels. */
  datatype Profile = Profile(
    email: string,
    password: string,
    role: string,
    money: int,
    expireAt: Option<int>,
    panels: PanelMap)

  /** Days were supplied and are a positive number. */
  predicate PositiveDays(activeDays: Option<int>) {
    activeDays.Some? && activeDays.value > 0
  }

  /** The stored expiry to extend from: a missing expiry, and the falsy
      epoch 0, both count as now. */
  function ExpiryOrNow(expireAt: Option<int>, now: nat): int {
    if expireAt.Some? && expireAt.value != 0 then expireAt.value else now
  }

  /** Create the account under `email`, or merge the supplied fields into
      the existing one. Arguments left out are "" (password, role), None
      (activeDays) and Omitted (money). */
  function AddOrUpdateUser(s: Store, now: nat, email: Email, password: string,
                           activeDays: Option<int>, role: string, money: MoneyArg): (r: Result<Upsert>)
    ensures email == "" ==> r == Err(MissingEmail)
    ensures r.Ok? ==> email in r.value.store.users
    // A new account needs a password and a positive number of days.
    ensures email != "" && email !in s.users ==>
      (r.Ok? <==> password != "" && PositiveDays(activeDays))
    ensures r.Ok? && email !in s.users ==>
      && r.value.view.action == Added
      && r.value.view.expireAt == now + activeDays.value * DayMs
      && r.value.view.role == (if role == "" then DefaultRole else role)
      && r.value.view.money == Some(if money.Amount? then money.amount else 0)
      && r.value.store.users[email]
         == User(email, password, r.value.view.role, r.value.view.money, Some(r.value.view.expireAt))
    // An existing account fails only when it has no expiry to report back.
    ensures email != "" && email in s.users ==>
      (r.Err? <==> s.users[email].expireAt.None? && !PositiveDays(activeDays))
    // Expiry is extended from the later of the stored expiry and now, never shortened.
    ensures r.Ok? && email in s.users && PositiveDays(activeDays) ==>
      var prev := s.users[email].expireAt;
      var next := r.value.store.users[email].expireAt;
      && next == Some(r.value.view.expireAt)
      && next.value == Max(ExpiryOrNow(prev, now), now) + activeDays.value * DayMs
      && next.value > now
      && (prev.Some? ==> next.value > prev.value)
    ensures r.Ok? && email in s.users && !PositiveDays(activeDays) ==>
      && r.value.store.users[email].expireAt == s.users[email].expireAt
      && r.value.view.expireAt == s.users[email].expireAt.value
    // An existing account is never tagged added.
    ensures r.Ok? && email in s.users ==> r.value.view.action != Added
    // Nothing supplied: nothing written, and the stored fields are echoed.
    ensures r.Ok? && email in s.users ==>
      (r.value.view.action == Unchanged
       <==> password == "" && role == "" && money.Omitted? && !PositiveDays(activeDays))
    ensures r.Ok? && r.value.view.action == Unchanged ==>
      && r.value.store == s
      && r.value.view.role == s.users[email].role
      && r.value.view.money == s.users[email].money
    // Money is an absolute overwrite, null included; the reply falls back to
    // the stored balance unless a number was supplied.
    ensures r.Ok? && email in s.users ==>
      && r.value.store.users[email].money
         == (match money
             case Omitted => s.users[email].money
             case NullMoney => None
             case Amount(m) => Some(m))
      && r.value.view.money == (if money.Amount? then Some(money.amount) else s.users[email].money)
      && r.value.view.role == (if role != "" then role else s.users[email].role)
      && r.value.store.users[email].role == r.value.view.role
      && r.value.store.users[email].password
         == (if password != "" then password else s.users[email].password)
      && r.value.store.users[email].email == s.users[email].email
    // Only the one user document is touched.
    ensures r.Ok? ==>
      && r.value.view.email == email
      && r.value.store.panels == s.panels
      && r.value.store.users.Keys == s.users.Keys + {email}
      && (forall e :: e in s.users && e != email ==> r.value.store.users[e] == s.users[e])
  {
    if email == "" then Err(MissingEmail)
    else if email !in s.users then
      if password == "" then Err(MissingPassword)
      else if !PositiveDays(activeDays) then Err(InvalidActiveDays)
      else
        var expireAt := now + activeDays.value * DayMs;
        var role' := if role != "" then role else DefaultRole;
        var money' := if money.Amount? then money.amount else 0;
        var user := User(email, password, role', Some(money'), Some(expireAt));
        Ok(Upsert(UserView(email, expireAt, role', Some(money'), Added),
                  s.(users := s.users[email := user])))
    else
      var data := s.users[email];
      var currentExpire := ExpiryOrNow(data.expireAt, now);
      var msDays := if PositiveDays(activeDays) then activeDays.value * DayMs else 0;
      if msDays == 0 && data.expireAt.None? then Err(MissingExpiry)
      else
        var newExpire := if msDays > 0 then Max(currentExpire, now) + msDays else data.expireAt.value;
        if password != "" || role != "" || !money.Omitted? || msDays > 0 then
          var user := data.(
            password := if password != "" then password else data.password,
            role := if role != "" then role else data.role,
            money := match money
                     case Omitted => data.money
                     case NullMoney => None
                     case Amount(m) => Some(m),
            expireAt := if msDays > 0 then Some(newExpire) else data.expireAt);
          Ok(Upsert(UserView(email, newExpire, user.role,
                             if money.Amount? then Some(money.amount) else data.money, Updated),
                    s.(users := s.users[email := user])))
        else
          Ok(Upsert(UserView(email, data.expireAt.value, data.role, data.money, Unchanged), s))
  }

  /** The profile of the user under `email`, with role defaulting to "user"
      and money to 0. */
  function GetUser(s: Store, email: Email): (r: Result<Profile>)
    ensures r.Ok? <==> email in s.users
    ensures r.Err? ==> r.failure == UserNotFound
    ensures r.Ok? ==>
      && r.value.email == s.users[email].email
      && r.value.password == s.users[email].password
      && r.value.role == (if s.users[email].role != "" then s.users[email].role else DefaultRole)
      && r.value.role != ""
      && r.value.money == ValueOr(s.users[email].money, 0)
      && r.value.expireAt == s.users[email].expireAt
      && r.value.panels == PanelsOf(s, email)
  {
    if email !in s.users then Err(UserNotFound)
    else
      var data := s.users[email];
      Ok(Profile(data.email, data.password,
                 if data.role != "" then data.role else DefaultRole,
                 ValueOr(data.money, 0), data.expireAt, PanelsOf(s, email)))
  }

  /** Remove the user document; its panels subcollection is left behind. */
  function DeleteUser(s: Store, email: Email): (r: Result<Store>)
    ensures r.Ok? <==> email in s.users
    ensures r.Err? ==> r.failure == UserNotFound
    ensures r.Ok? ==> r.value.users == s.users - {email} && r.value.panels == s.panels
  {
    if email !in s.users then Err(UserNotFound)
    else Ok(s.(users := s.users - {email}))
  }

  /** The `email` field of every user document, for an admin requester;
      documents whose email field is empty are skipped. */
  function GetAllUserEmails(s: Store, adminEmail: Email): (r: Result<set<string>>)
    ensures r.Ok? <==> adminEmail != "" && IsAdmin(s, adminEmail)
    ensures adminEmail != "" && adminEmail !in s.users ==> r == Err(AdminNotFound)
    ensures adminEmail in s.users && !IsAdmin(s, adminEmail) && adminEmail != "" ==> r == Err(NotAdmin)
    ensures r.Ok? ==> "" !in r.value
    ensures r.Ok? ==> forall e :: e in s.users && s.users[e].email != "" ==> s.users[e].email in r.value
    ensures r.Ok? ==> forall x :: x in r.value ==> exists e :: e in s.users && s.users[e].email == x
  {
    if adminEmail == "" then Err(MissingEmail)
    else if adminEmail !in s.users then Err(AdminNotFound)
    else if s.users[adminEmail].role != AdminRole then Err(NotAdmin)
    else Ok(set e | e in s.users && s.users[e].email != "" :: s.users[e].email)
  }

  /** Overwrite the role of an existing user, with any string. */
  function UpdateUserRole(s: Store, email: Email, role: string): (r: Result<Store>)
    ensures r.Ok? <==> email in s.users
    ensures r.Err? ==> r.failure == UserNotFound
    ensures r.Ok? ==>
      && r.value.users == s.users[email := s.users[email].(role := role)]
      && r.value.panels == s.panels
  {
    if email !in s.users then Err(UserNotFound)
    else Ok(s.(users := s.users[email := s.users[email].(role := role)]))
  }

  /** The guard of admin-only actions. */
  function CheckAdmin(s: Store, email: Email): (r: Result<bool>)
    ensures r.Ok? <==> IsAdmin(s, email)
    ensures r.Ok? ==> r.value
    ensures email !in s.users ==> r == Err(UserNotFound)
  {
    if email !in s.users then Err(UserNotFound)
    else if s.users[email].role == "" || s.users[email].role != AdminRole then Err(NotAdmin)
    else Ok(true)
  }

  // ----- relations between the account functions -----

  /** Reading an account back after a successful upsert returns what the
      upsert reported, as long as money was not sent as null. */
  lemma UpsertThenGet(s: Store, now: nat, email: Email, password: string,
                      activeDays: Option<int>, role: string, money: MoneyArg)
    requires AddOrUpdateUser(s, now, email, password, activeDays, role, money).Ok?
    requires !money.NullMoney?
    ensures
      var up := AddOrUpdateUser(s, now, email, password, activeDays, role, money).value;
      var p := GetUser(up.store, email);
      && p.Ok?
      && p.value.expireAt == Some(up.view.expireAt)
      && p.value.money == ValueOr(up.view.money, 0)
      && p.value.role == (if up.view.role == "" then DefaultRole else up.view.role)
      && (email !in s.users ==> p.value.password == password && p.value.email == email)
  {
  }

  /** With money sent as null the stored balance becomes null, read back as
      0, while the reply still shows the previous balance. */
  lemma NullMoneyReportsStaleBalance(s: Store, now: nat, email: Email, password: string,
                                     activeDays: Option<int>, role: string)
    requires email != "" && email in s.users
    requires s.users[email].expireAt.Some? || PositiveDays(activeDays)
    ensures
      var up := AddOrUpdateUser(s, now, email, password, activeDays, role, NullMoney);
      && up.Ok?
      && up.value.view.action == Updated
      && up.value.view.money == s.users[email].money
      && up.value.store.users[email].money == None
      && GetUser(up.value.store, email).value.money == 0
  {
  }

  /** An upsert never shortens an account's expiry. */
  lemma UpsertNeverShortensExpiry(s: Store, now: nat, email: Email, password: string,
                                  activeDays: Option<int>, role: string, money: MoneyArg)
    requires AddOrUpdateUser(s, now, email, password, activeDays, role, money).Ok?
    requires email in s.users && s.users[email].expireAt.Some?
    ensures
      var up := AddOrUpdateUser(s, now, email, password, activeDays, role, money).value;
      up.store.users[email].expireAt.value >= s.users[email].expireAt.value
  {
  }

  /** The account functions keep the store well formed; with a non-negative
      money argument they keep balances non-negative. */
  lemma UpsertPreservesInvariants(s: Store, now: nat, email: Email, password: string,
                                  activeDays: Option<int>, role: string, money: MoneyArg)
    requires money.Amount? ==> money.amount >= 0
    requires AddOrUpdateUser(s, now, email, password, activeDays, role, money).Ok?
    ensures
      var st := AddOrUpdateUser(s, now, email, password, activeDays, role, money).value.store;
      && (WellFormed(s) ==> WellFormed(st))
      && (BalancesNonNegative(s) ==> BalancesNonNegative(st))
  {
  }

  /** A deleted user is gone, but its panels are still there. */
  lemma DeleteThenGet(s: Store, email: Email)
    requires DeleteUser(s, email).Ok?
    ensures GetUser(DeleteUser(s, email).value, email) == Err(UserNotFound)
    ensures PanelsOf(DeleteUser(s, email).value, email) == PanelsOf(s, email)
    ensures WellFormed(s) ==> WellFormed(DeleteUser(s, email).value)
  {
  }

  /** After a role change the admin check follows the new role. */
  lemma RoleThenCheckAdmin(s: Store, email: Email, role: string)
    requires UpdateUserRole(s, email, role).Ok?
    ensures CheckAdmin(UpdateUserRole(s, email, role).value, email).Ok? <==> role == AdminRole
    ensures WellFormed(s) ==> WellFormed(UpdateUserRole(s, email, role).value)
    ensures BalancesNonNegative(s) ==> BalancesNonNegative(UpdateUserRole(s, email, role).value)
  {
  }

  /** In a well-formed store the listing is exactly the set of user keys,
      so it always contains the requesting admin and is never empty. */
  lemma AllEmailsAreTheKeys(s: Store, adminEmail: Email)
    requires WellFormed(s)
    requires GetAllUserEmails(s, adminEmail).Ok?
    ensures GetAllUserEmails(s, adminEmail).value == s.users.Keys
    ensures adminEmail in GetAllUserEmails(s, adminEmail).value
  {
    var r := GetAllUserEmails(s, adminEmail).value;
    forall x | x in r ensures x in s.users.Keys {
      var e :| e in s.users && s.users[e].email != "" && s.users[e].email == x;
    }
    forall e | e in s.users ensures e in r {
      assert s.users[e].email == e;
    }
  }
}

=== FILE: panel_actions.dfy ===
/** The panel actions of the dispatch table: `panel_health`,
    `panel_create`, `panel_delete`, `panel_delete_all` and `panel_current`.
    Calls to the provisioning service are replaced by their outcomes. */
module PanelActions {
  import opened Common
  import opened JsValues
  import opened Store
  import opened Ledger
  import opened Panels
  import opened Http

  /** The health probe's answer, or the pessimistic fallback when the
      probe fails; the failure itself is never reported. */
  function PanelHealth(req: Request, s: Store, probe: HealthProbe): (r: Reply)
    // An error answer carries only a message.
    ensures r.response.status != 200 ==> r.response.payload == ErrorBody
    ensures r.store == s
    ensures req.verb != "GET" <==> r.response == Error(405)
    ensures req.verb == "GET" && probe.HealthDown? ==> r.response == Response(200, Health(false, true))
    ensures req.verb == "GET" && probe.HealthUp? ==>
      r.response == Response(200, Health(probe.active, probe.maintenance))
  {
    if req.verb != "GET" then Reply(Error(405), s)
    else match probe
      case HealthUp(active, maintenance) => Reply(Response(200, Health(active, maintenance)), s)
      case HealthDown => Reply(Response(200, Health(false, true)), s)
  }

  // ----- panel_create -----

  /** A POST whose body has a truthy email, username, password and ram,
      the email being a string. */
  predicate CreateRequestOk(req: Request) {
    && req.verb == "POST" && req.body.Some?
    && var f := req.body.value;
    && Truthy(Get(f, "email")) && Truthy(Get(f, "username"))
    && Truthy(Get(f, "password")) && Truthy(Get(f, "ram"))
    && Get(f, "email").Text?
  }

  function CreateEmail(req: Request): Email
    requires CreateRequestOk(req)
  {
    Get(req.body.value, "email").s
  }

  /** The expiry lies before now; an account without an expiry never
      expires here, since the invalid date it becomes compares false. */
  predicate Expired(u: User, now: nat) {
    u.expireAt.Some? && u.expireAt.value < now
  }

  /** A non-admin whose balance is missing, zero or below the panel cost. */
  predicate Underfunded(u: User) {
    u.role != AdminRole && (u.money.None? || u.money.value < PanelCost)
  }

  /** Some panel of the user already has this username. */
  predicate UsernameTaken(panels: PanelMap, username: Field) {
    username.Text? && exists k :: k in panels && panels[k].username == username.s
  }

  /** The provisioning service returned a body with a truthy server id. */
  predicate HasServerId(data: Option<Panel>) {
    data.Some? && data.value.serverId.Some? && data.value.serverId.value != 0
  }

  /** The body of the `panel_create` handler, as it would run if it were
      handed the request: expiry check, balance gate, deduction before
      provisioning, duplicate-username check, and a refund on every failure
      after the deduction. */
  function PanelCreate(req: Request, s: Store, now: nat, provision: Provision): (r: Reply)
    // Every error answer but the balance error carries only a message.
    ensures r.response.status !in {200, 402} ==> r.response.payload == ErrorBody
    ensures req.verb != "POST" ==> r == Reply(Error(405), s)
    ensures r.response.status == 405 <==> req.verb != "POST"
    ensures r.response.status == 400 <==>
      && req.verb == "POST" && req.body.Some?
      && var f := req.body.value;
         !Truthy(Get(f, "email")) || !Truthy(Get(f, "username"))
         || !Truthy(Get(f, "password")) || !Truthy(Get(f, "ram"))
    ensures r.response.status == 404 <==> CreateRequestOk(req) && CreateEmail(req) !in s.users
    // Every failure leaves the store, balances included, as it was.
    ensures r.response.status != 200 ==> r.store == s
    ensures r.response.status in {200, 400, 402, 403, 404, 405, 409, 500}
    ensures r.response.status == 403 <==>
      CreateRequestOk(req) && CreateEmail(req) in s.users && Expired(s.users[CreateEmail(req)], now)
    ensures r.response.status == 402 <==>
      && CreateRequestOk(req) && CreateEmail(req) in s.users
      && !Expired(s.users[CreateEmail(req)], now) && Underfunded(s.users[CreateEmail(req)])
    ensures r.response.status == 402 ==>
      r.response.payload == BalanceError(PanelCost, ValueOr(s.users[CreateEmail(req)].money, 0))
    ensures r.response.status == 409 <==>
      && CreateRequestOk(req) && CreateEmail(req) in s.users
      && var u := s.users[CreateEmail(req)];
      && !Expired(u, now) && !Underfunded(u)
      && UsernameTaken(PanelsOf(s, CreateEmail(req)), Get(req.body.value, "username"))
    ensures r.response.status == 200 <==>
      && CreateRequestOk(req) && CreateEmail(req) in s.users
      && var u := s.users[CreateEmail(req)];
      && !Expired(u, now) && !Underfunded(u)
      && !UsernameTaken(PanelsOf(s, CreateEmail(req)), Get(req.body.value, "username"))
      && provision.Returned? && HasServerId(provision.data)
    // Past every gate, a thrown call or a body without a server id is 500.
    ensures
      (&& CreateRequestOk(req) && CreateEmail(req) in s.users
       && var u := s.users[CreateEmail(req)];
       && !Expired(u, now) && !Underfunded(u)
       && !UsernameTaken(PanelsOf(s, CreateEmail(req)), Get(req.body.value, "username"))
       && !(provision.Returned? && HasServerId(provision.data)))
      ==> r.response.status == 500
    // Success: a non-admin pays exactly the panel cost, an admin nothing,
    // and the panel is stored under the text of its server id.
    ensures r.response.status == 200 ==>
      var e := CreateEmail(req);
      var u := s.users[e];
      var p := provision.data.value;
      && r.response.payload == PanelCreated(p)
      && r.store.users
         == s.users[e := u.(money := if u.role == AdminRole then u.money else Some(u.money.value - PanelCost))]
      && r.store.panels == s.panels[e := PanelsOf(s, e)[IdKey(p.serverId.value) := p]]
    ensures WellFormed(s) ==> WellFormed(r.store)
    ensures BalancesNonNegative(s) ==> BalancesNonNegative(r.store)
  {
    if req.verb != "POST" then Reply(Error(405), s)
    else if req.body.None? then Reply(Error(500), s)
    else
      var f := req.body.value;
      var email := Get(f, "email");
      var username := Get(f, "username");
      if !Truthy(email) || !Truthy(username) || !Truthy(Get(f, "password")) || !Truthy(Get(f, "ram")) then
        Reply(Error(400), s)
      else if !email.Text? then Reply(Error(500), s)
      else
        var e := email.s;
        if e !in s.users then Reply(Error(404), s)
        else
          var u := s.users[e];
          if Expired(u, now) then Reply(Error(403), s)
          else if Underfunded(u) then Reply(Response(402, BalanceError(PanelCost, ValueOr(u.money, 0))), s)
          else
            var deducted := if u.role != AdminRole then PanelCost else 0;
            var charged := if deducted > 0 then SetMoney(s, e, Some(u.money.value - PanelCost)) else s;
            // The compensation of the 409 and missing-serverId paths writes
            // back the balance read at the start.
            var restored := if deducted > 0 then SetMoney(charged, e, u.money) else charged;
            assert restored == s by { SetMoneyUnchanged(s, e); }
            if UsernameTaken(PanelsOf(s, e), username) then Reply(Error(409), restored)
            else match provision
              case ProvisionThrew =>
                // The catch block re-reads the balance and adds the deduction back.
                var refunded :=
                  if deducted > 0 then SetMoney(charged, e, Some(charged.users[e].money.value + deducted))
                  else charged;
                assert refunded == s by { SetMoneyUnchanged(s, e); }
                Reply(Error(500), refunded)
              case Returned(data) =>
                if !HasServerId(data) then Reply(Error(500), restored)
                else
                  var p := data.value;
                  Reply(Response(200, PanelCreated(p)),
                        charged.(panels := charged.panels[e := PanelsOf(charged, e)[IdKey(p.serverId.value) := p]]))
  }

  // ----- panel_delete -----

  /** A DELETE whose body has a truthy email, userId and serverId, the two
      ids being numeric. */
  predicate DeleteRequestOk(req: Request) {
    && req.verb == "DELETE" && req.body.Some?
    && var f := req.body.value;
    && Truthy(Get(f, "email")) && Truthy(Get(f, "userId")) && Truthy(Get(f, "serverId"))
    && ToNumber(Get(f, "userId")).Some? && ToNumber(Get(f, "serverId")).Some?
  }

  /** The body of the `panel_delete` handler: verify ownership, call the
      remote delete (`remoteOk` is its outcome), and only then delete the
      local panel document. */
  function PanelDelete(req: Request, s: Store, remoteOk: bool): (r: Reply)
    // An error answer carries only a message.
    ensures r.response.status != 200 ==> r.response.payload == ErrorBody
    ensures req.verb != "DELETE" ==> r == Reply(Error(405), s)
    ensures r.response.status == 405 <==> req.verb != "DELETE"
    // A missing body, and a non-string email reaching the ownership check,
    // are thrown errors.
    ensures req.verb == "DELETE" && (req.body.None? || (DeleteRequestOk(req) && !Get(req.body.value, "email").Text?))
            ==> r == Reply(Error(500), s)
    // A falsy field, or an id that is not a number, is 400.
    ensures r.response.status == 400 <==>
      && req.verb == "DELETE" && req.body.Some?
      && var f := req.body.value;
         !Truthy(Get(f, "email")) || !Truthy(Get(f, "userId")) || !Truthy(Get(f, "serverId"))
         || ToNumber(Get(f, "userId")).None? || ToNumber(Get(f, "serverId")).None?
    ensures r.response.status != 200 ==> r.store == s
    ensures r.response.status in {200, 400, 404, 405, 500}
    // The local record changes only after the remote delete succeeded.
    ensures r.store != s ==> remoteOk
    ensures r.response.status == 200 <==>
      && DeleteRequestOk(req)
      && var f := req.body.value;
      && Get(f, "email").Text?
      && Owns(s, Get(f, "email").s, ToNumber(Get(f, "userId")).value, ToNumber(Get(f, "serverId")).value)
      && remoteOk
    // No user, no panel, and someone else's panel all give the same 404.
    ensures DeleteRequestOk(req) && Get(req.body.value, "email").Text? ==>
      var f := req.body.value;
      (r.response.status == 404
       <==> !Owns(s, Get(f, "email").s, ToNumber(Get(f, "userId")).value, ToNumber(Get(f, "serverId")).value))
    // A failed remote delete, after ownership was shown, is 500.
    ensures
      (&& DeleteRequestOk(req) && Get(req.body.value, "email").Text? && !remoteOk
       && Owns(s, Get(req.body.value, "email").s, ToNumber(Get(req.body.value, "userId")).value,
               ToNumber(Get(req.body.value, "serverId")).value))
      ==> r.response.status == 500
    ensures r.response.status == 200 ==> r.response.payload == PanelDeleted
    ensures r.response.status == 200 ==>
      var f := req.body.value;
      var e := Get(f, "email").s;
      r.store == s.(panels := s.panels[e := PanelsOf(s, e) - {IdKey(ToNumber(Get(f, "serverId")).value)}])
  {
    if req.verb != "DELETE" then Reply(Error(405), s)
    else if req.body.None? then Reply(Error(500), s)
    else
      var f := req.body.value;
      var email := Get(f, "email");
      var userId := Get(f, "userId");
      var serverId := Get(f, "serverId");
      if !Truthy(email) || !Truthy(userId) || !Truthy(serverId) then Reply(Error(400), s)
      else
        var uid := ToNumber(userId);
        var sid := ToNumber(serverId);
        if uid.None? || sid.None? then Reply(Error(400), s)
        else match FindPanelOwner(s, email, Num(uid.value), Num(sid.value))
          case Threw => Reply(Error(500), s)
          case NoOwner => Reply(Error(404), s)
          case Owner(e, _, id) =>
            if !remoteOk then Reply(Error(500), s)
            else Reply(Response(200, PanelDeleted),
                       s.(panels := s.panels[e := PanelsOf(s, e) - {IdKey(id)}]))
  }

  // ----- panel_delete_all -----

  /** The `panel_delete_all` handler: an admin check whose failure is a
      thrown error (500, not 403), then the bulk delete. */
  ghost function PanelDeleteAll(req: Request, s: Store): (r: Reply)
    // An error answer carries only a message.
    ensures r.response.status != 200 ==> r.response.payload == ErrorBody
    ensures req.verb != "DELETE" ==> r == Reply(Error(405), s)
    ensures r.response.status == 405 <==> req.verb != "DELETE"
    ensures r.response.status == 400 <==>
      req.verb == "DELETE" && req.body.Some? && !Truthy(Get(req.body.value, "email"))
    ensures r.response.status != 200 ==> r.store == s
    ensures r.response.status in {200, 400, 405, 500}
    ensures r.response.status == 200 <==>
      && req.verb == "DELETE" && req.body.Some?
      && var email := Get(req.body.value, "email");
      && email.Text? && email.s != "" && IsAdmin(s, email.s)
    ensures r.response.status == 200 ==>
      && r.response.payload == PanelsDeleted(PanelTotal(s, s.users.Keys))
      && r.store.users == s.users
      && (forall e :: e in s.users ==> PanelsOf(r.store, e) == map[])
      && (forall e :: e !in s.users ==> PanelsOf(r.store, e) == PanelsOf(s, e))
  {
    if req.verb != "DELETE" then Reply(Error(405), s)
    else if req.body.None? then Reply(Error(500), s)
    else
      var email := Get(req.body.value, "email");
      if !Truthy(email) then Reply(Error(400), s)
      else if !email.Text? then Reply(Error(500), s)
      else match CheckAdmin(s, email.s)
        case Err(_) => Reply(Error(500), s)
        case Ok(_) => Reply(Response(200, PanelsDeleted(PanelTotal(s, s.users.Keys))), ClearPanels(s))
  }

  // ----- panel_current -----

  /** The panels stored under the email; none is an empty list, not an
      error, even when no user document exists. */
  function PanelCurrent(req: Request, s: Store): (r: Reply)
    // An error answer carries only a message.
    ensures r.response.status != 200 ==> r.response.payload == ErrorBody
    ensures r.store == s
    ensures req.verb != "GET" ==> r.response == Error(405)
    ensures r.response.status == 405 <==> req.verb != "GET"
    ensures r.response.status == 400 <==> req.verb == "GET" && !Truthy(Get(req.query, "email"))
    ensures r.response.status in {200, 400, 405, 500}
    ensures r.response.status == 200 <==>
      req.verb == "GET" && Get(req.query, "email").Text? && Get(req.query, "email").s != ""
    ensures r.response.status == 200 ==>
      r.response.payload == PanelList(PanelsOf(s, Get(req.query, "email").s))
  {
    if req.verb != "GET" then Reply(Error(405), s)
    else
      var email := Get(req.query, "email");
      if !Truthy(email) then Reply(Error(400), s)
      else if !email.Text? then Reply(Error(500), s)
      else Reply(Response(200, PanelList(PanelsOf(s, email.s))), s)
  }

  // ----- relations between the panel actions -----

  /** A created panel passes the ownership check for its own ids. */
  lemma CreateThenFind(req: Request, s: Store, now: nat, provision: Provision)
    requires PanelCreate(req, s, now, provision).response.status == 200
    requires provision.data.value.userId.Some?
    ensures
      var p := provision.data.value;
      var st := PanelCreate(req, s, now, provision).store;
      FindPanelOwner(st, Text(CreateEmail(req)), Num(p.userId.value), Num(p.serverId.value))
        == Owner(CreateEmail(req), p.userId.value, p.serverId.value)
  {
  }

  /** A created panel keeps usernames unique within the user's panels,
      provided the service stores the username it was asked for: the
      duplicate check is made against the requested name. */
  lemma CreateKeepsUsernamesUnique(req: Request, s: Store, now: nat, provision: Provision)
    requires UsernamesUnique(s)
    requires PanelCreate(req, s, now, provision).response.status == 200
    requires Get(req.body.value, "username").Text?
    requires provision.data.value.username == Get(req.body.value, "username").s
    ensures UsernamesUnique(PanelCreate(req, s, now, provision).store)
  {
  }

  /** A returned server id that is already a panel key of the user is not
      refused: the new panel replaces the stored one, and the number of
      panels stays the same. */
  lemma CreateOverwritesStoredPanel(req: Request, s: Store, now: nat, provision: Provision)
    requires PanelCreate(req, s, now, provision).response.status == 200
    requires IdKey(provision.data.value.serverId.value) in PanelsOf(s, CreateEmail(req))
    ensures
      var k := IdKey(provision.data.value.serverId.value);
      var after := PanelsOf(PanelCreate(req, s, now, provision).store, CreateEmail(req));
      && after[k] == provision.data.value
      && after.Keys == PanelsOf(s, CreateEmail(req)).Keys
      && |after| == |PanelsOf(s, CreateEmail(req))|
  {
  }

  /** Deleting a freshly created panel by its ids (remote delete
      succeeding) gives back the panels the user had before. */
  lemma CreateThenDelete(req: Request, s: Store, now: nat, provision: Provision)
    requires PanelCreate(req, s, now, provision).response.status == 200
    requires provision.data.value.userId.Some? && provision.data.value.userId.value != 0
    requires IdKey(provision.data.value.serverId.value) !in PanelsOf(s, CreateEmail(req))
    ensures
      var p := provision.data.value;
      var e := CreateEmail(req);
      var st := PanelCreate(req, s, now, provision).store;
      var del := Request("DELETE",
                         Some(map["email" := Text(e), "userId" := Num(p.userId.value),
                                  "serverId" := Num(p.serverId.value)]),
                         map[]);
      var r := PanelDelete(del, st, true);
      && r.response.status == 200
      && PanelsOf(r.store, e) == PanelsOf(s, e)
      && r.store.users == st.users
  {
    var p := provision.data.value;
    var e := CreateEmail(req);
    var k := IdKey(p.serverId.value);
    assert PanelsOf(s, e)[k := p] - {k} == PanelsOf(s, e);
  }
}

=== FILE: panels.dfy ===
/** The panel functions of the handler: `findPanelOwner` and
    `deleteAllPanels`; `getCurrentPanels` is `Store.PanelsOf`. */
module Panels {
  import opened Common
  import opened JsValues
  import opened Store

  /** What `findPanelOwner` yields: the verified owner triple, `null`, or a
      thrown error (the store refuses a non-string document id). */
  datatype OwnerLookup = Owner(email: Email, userId: int, serverId: int) | NoOwner | Threw

  /** The ownership condition: the user document exists, holds a panel
      under `String(serverId)`, and that panel's userId is `userId`. */
  predicate Owns(s: Store, email: Email, userId: int, serverId: int) {
    && email in s.users
    && IdKey(serverId) in PanelsOf(s, email)
    && PanelsOf(s, email)[IdKey(serverId)].userId == Some(userId)
  }

  /** Resolve who owns panel `serverId`, given the claimed email and
      userId. Every way of failing the check gives the same `NoOwner`. */
  function FindPanelOwner(s: Store, email: Field, userId: Field, serverId: Field): (r: OwnerLookup)
    ensures r.Owner? <==>
      && email.Text? && email.s != ""
      && ToNumber(userId).Some? && ToNumber(serverId).Some?
      && Owns(s, email.s, ToNumber(userId).value, ToNumber(serverId).value)
    ensures r.Owner? ==>
      r == Owner(email.s, ToNumber(userId).value, ToNumber(serverId).value)
    ensures r.Threw? <==>
      Truthy(email) && !email.Text? && ToNumber(userId).Some? && ToNumber(serverId).Some?
  {
    var uid := ToNumber(userId);
    var sid := ToNumber(serverId);
    if !Truthy(email) || uid.None? || sid.None? then NoOwner
    else if !email.Text? then Threw
    else
      var e := email.s;
      if e !in s.users then NoOwner
      else if IdKey(sid.value) !in PanelsOf(s, e) then NoOwner
      else if PanelsOf(s, e)[IdKey(sid.value)].userId != Some(uid.value) then NoOwner
      else Owner(e, uid.value, sid.value)
  }

  /** The three root causes of a failed lookup (no user, no panel, another
      user's id) are indistinguishable to the caller. */
  lemma FindPanelOwnerCollapses(s: Store, email: Email, userId: int, serverId: int)
    requires email != ""
    requires || email !in s.users
             || IdKey(serverId) !in PanelsOf(s, email)
             || PanelsOf(s, email)[IdKey(serverId)].userId != Some(userId)
    ensures FindPanelOwner(s, Text(email), Num(userId), Num(serverId)) == NoOwner
  {
  }

  /** The panels map part-way through `deleteAllPanels`: the
      subcollections of the user documents not in `remaining` emptied,
      every other one as it was. */
  function ClearedExcept(s: Store, remaining: set<Email>): (r: map<Email, PanelMap>)
    ensures r.Keys == s.panels.Keys
  {
    map e | e in s.panels :: if e in s.users && e !in remaining then map[] else s.panels[e]
  }

  lemma ClearedExceptStep(s: Store, remaining: set<Email>, e: Email)
    requires e in s.users
    ensures ClearedExcept(s, remaining - {e})
            == if e in s.panels then ClearedExcept(s, remaining)[e := map[]] else ClearedExcept(s, remaining)
  {
  }

  /** The store after every user document's panels have been deleted;
      panels under emails without a user document are not visited. */
  function ClearPanels(s: Store): (r: Store)
    ensures r.users == s.users
    ensures r.panels.Keys == s.panels.Keys
    ensures forall e :: e in s.users ==> PanelsOf(r, e) == map[]
    ensures forall e :: e !in s.users ==> PanelsOf(r, e) == PanelsOf(s, e)
  {
    s.(panels := ClearedExcept(s, {}))
  }

  ghost function Pick(users: set<Email>): Email
    requires users != {}
  {
    var e :| e in users; e
  }

  /** The number of panels stored under the given emails. */
  ghost function PanelTotal(s: Store, users: set<Email>): nat
    decreases users
  {
    if users == {} then 0
    else
      var e := Pick(users);
      |PanelsOf(s, e)| + PanelTotal(s, users - {e})
  }

  /** The total may be summed starting from any email. */
  lemma {:induction false} PanelTotalRemove(s: Store, users: set<Email>, e: Email)
    requires e in users
    ensures PanelTotal(s, users) == |PanelsOf(s, e)| + PanelTotal(s, users - {e})
    decreases users
  {
    var x := Pick(users);
    if x != e {
      calc {
        PanelTotal(s, users);
        |PanelsOf(s, x)| + PanelTotal(s, users - {x});
        { PanelTotalRemove(s, users - {x}, e); }
        |PanelsOf(s, x)| + |PanelsOf(s, e)| + PanelTotal(s, users - {x} - {e});
        { assert users - {x} - {e} == users - {e} - {x}; }
        |PanelsOf(s, e)| + |PanelsOf(s, x)| + PanelTotal(s, users - {e} - {x});
        { PanelTotalRemove(s, users - {e}, x); }
        |PanelsOf(s, e)| + PanelTotal(s, users - {e});
      }
    }
  }

  /** One store batch: panel keys of one user deleted in one commit. */
  datatype Batch = Batch(owner: Email, keys: seq<string>)

  function SumLengths(batches: seq<Batch>): nat {
    if batches == [] then 0
    else SumLengths(batches[..|batches| - 1]) + |batches[|batches| - 1].keys|
  }

  /** The keys of the batches, in commit order. */
  function Flatten(batches: seq<Batch>): seq<string> {
    if batches == [] then []
    else Flatten(batches[..|batches| - 1]) + batches[|batches| - 1].keys
  }

  /** A batch that is non-empty, no larger than `BatchSize`, and removes
      only panels `owner` has in `s`. */
  predicate ValidBatch(s: Store, b: Batch) {
    && 0 < |b.keys| <= BatchSize
    && b.owner in s.users
    && (forall k :: k in b.keys ==> k in PanelsOf(s, b.owner))
  }

  /** Every batch but the last is full, so with the batches concatenating
      to the snapshot they are exactly its slices [i, i + BatchSize). */
  predicate FullBatchesFirst(batches: seq<Batch>) {
    forall j :: 0 <= j < |batches| - 1 ==> |batches[j].keys| == BatchSize
  }

  predicate AllValid(s: Store, batches: seq<Batch>) {
    forall b :: b in batches ==> ValidBatch(s, b)
  }

  lemma AllValidAppend(s: Store, a: seq<Batch>, b: seq<Batch>)
    requires AllValid(s, a) && AllValid(s, b)
    ensures AllValid(s, a + b)
  {
  }

  lemma {:induction false} SumLengthsAppend(a: seq<Batch>, b: seq<Batch>)
    ensures SumLengths(a + b) == SumLengths(a) + SumLengths(b)
    decreases |b|
  {
    if b != [] {
      var last := b[|b| - 1];
      assert (a + b)[..|a + b| - 1] == a + b[..|b| - 1];
      assert (a + b)[|a + b| - 1] == last;
      SumLengthsAppend(a, b[..|b| - 1]);
      assert SumLengths(a + b) == SumLengths(a + b[..|b| - 1]) + |last.keys|;
    } else {
      assert a + b == a;
    }
  }

  /** The documents of a panels snapshot, in the order the store lists them. */
  method ListPanelKeys(m: PanelMap) returns (docs: seq<string>)
    ensures |docs| == |m|
    ensures forall k :: k in docs <==> k in m
  {
    docs := [];
    var rest := m.Keys;
    while rest != {}
      invariant rest <= m.Keys
      invariant forall k :: k in docs <==> k in m && k !in rest
      invariant |docs| + |rest| == |m.Keys|
      decreases rest
    {
      var k :| k in rest;
      docs := docs + [k];
      rest := rest - {k};
    }
  }

  lemma FlattenAppend(bs: seq<Batch>, b: Batch)
    ensures Flatten(bs + [b]) == Flatten(bs) + b.keys
    ensures SumLengths(bs + [b]) == SumLengths(bs) + |b.keys|
  {
    assert (bs + [b])[..|bs|] == bs;
  }

  lemma SliceSplit(docs: seq<string>, i: nat, end: nat)
    requires i <= end <= |docs|
    ensures docs[..end] == docs[..i] + docs[i..end]
    ensures forall k :: k in docs[..end] <==> k in docs[..i] || k in docs[i..end]
  {
  }

  /** The inner loop of `deleteAllPanels` for one user: commit the slices
      `docs[i..i + BatchSize]` for i = 0, BatchSize, 2 * BatchSize, ... and
      add each slice's length to the count. The slices partition `docs`. */
  method DeleteInBatches(owner: Email, m: PanelMap, docs: seq<string>)
    returns (m': PanelMap, count: nat, bs: seq<Batch>)
    requires forall k :: k in m ==> k in docs
    ensures m' == map[]
    ensures count == |docs| == SumLengths(bs)
    ensures Flatten(bs) == docs
    ensures FullBatchesFirst(bs)
    ensures forall b :: b in bs ==>
      && 0 < |b.keys| <= BatchSize
      && b.owner == owner
      && (forall k :: k in b.keys ==> k in docs)
  {
    m' := m;
    count := 0;
    bs := [];
    var i := 0;
    while i < |docs|
      invariant 0 <= i <= |docs|
      invariant forall k :: k in m' <==> k in m && k !in docs[..i]
      invariant count == i == SumLengths(bs)
      invariant Flatten(bs) == docs[..i]
      invariant FullBatchesFirst(bs)
      invariant i < |docs| ==> forall j :: 0 <= j < |bs| ==> |bs[j].keys| == BatchSize
      invariant forall b :: b in bs ==>
        && 0 < |b.keys| <= BatchSize
        && b.owner == owner
        && (forall k :: k in b.keys ==> k in docs)
    {
      var end := if i + BatchSize < |docs| then i + BatchSize else |docs|;
      var batch := docs[i..end];
      SliceSplit(docs, i, end);
      m' := m' - (set k | k in batch);
      var b := Batch(owner, batch);
      FlattenAppend(bs, b);
      bs := bs + [b];
      count := count + |batch|;
      i := end;
    }
    assert docs[..|docs|] == docs;
    assert m'.Keys == {};
  }

  /** One pass of the outer loop of `deleteAllPanels`: list the user's
      panels, delete them in batches, and count them. */
  method ClearOwner(s: Store, remaining: set<Email>, e: Email, panels: map<Email, PanelMap>)
    returns (panels': map<Email, PanelMap>, count: nat, bs: seq<Batch>)
    requires e in s.users
    requires panels == ClearedExcept(s, remaining)
    ensures panels' == ClearedExcept(s, remaining - {e})
    ensures count == |PanelsOf(s, e)| == SumLengths(bs)
    ensures AllValid(s, bs)
    // The batches are this user's, and list each of its panels once.
    ensures forall b :: b in bs ==> b.owner == e
    ensures forall k :: k in Flatten(bs) <==> k in PanelsOf(s, e)
    ensures |Flatten(bs)| == |PanelsOf(s, e)|
    ensures FullBatchesFirst(bs)
  {
    ClearedExceptStep(s, remaining, e);
    var docs := ListPanelKeys(PanelsOf(s, e));
    if |docs| == 0 {
      assert PanelsOf(s, e).Keys == {};
      panels', count, bs := panels, 0, [];
      if e in s.panels {
        panels' := panels[e := map[]];
      }
    } else {
      assert docs[0] in PanelsOf(s, e);
      var m;
      m, count, bs := DeleteInBatches(e, panels[e], docs);
      panels' := panels[e := m];
    }
  }

  /** Delete every panel of every user document, user by user, in batches
      of at most `BatchSize`, counting as it goes. The users themselves,
      and panels under emails with no user document, are kept. */
  method DeleteAllPanels(s: Store) returns (s': Store, deletedCount: nat, batches: seq<Batch>)
    ensures s' == ClearPanels(s)
    ensures deletedCount == PanelTotal(s, s.users.Keys)
    ensures SumLengths(batches) == deletedCount
    ensures AllValid(s, batches)
  {
    var panels := s.panels;
    var remaining := s.users.Keys;
    deletedCount := 0;
    batches := [];
    assert panels == ClearedExcept(s, remaining);
    while remaining != {}
      invariant remaining <= s.users.Keys
      invariant panels == ClearedExcept(s, remaining)
      invariant deletedCount + PanelTotal(s, remaining) == PanelTotal(s, s.users.Keys)
      invariant SumLengths(batches) == deletedCount
      invariant AllValid(s, batches)
      decreases remaining
    {
      var e :| e in remaining;
      PanelTotalRemove(s, remaining, e);
      var count, bs;
      panels, count, bs := ClearOwner(s, remaining, e, panels);
      SumLengthsAppend(batches, bs);
      AllValidAppend(s, batches, bs);
      batches := batches + bs;
      deletedCount := deletedCount + count;
      remaining := remaining - {e};
    }
    s' := s.(panels := panels);
  }
}

=== FILE: router.dfy ===
/** The exported request handler: read the action name, look it up in the
    dispatch table and run the handler, turning anything thrown into 500.
    The model is a total function from request, store and environment to
    the response and the store left behind. */
module Router {
  import opened JsValues
  import opened Store
  import opened Panels
  import opened Http
  import opened UserActions
  import opened PanelActions

  const UserActionNames: set<string> :=
    {"user_add", "user_delete", "user_info", "user_info_all", "user_role"}
  const PanelActionNames: set<string> :=
    {"panel_health", "panel_create", "panel_delete", "panel_delete_all", "panel_current"}
  /** The keys of the dispatch table. */
  const KnownActions: set<string> := UserActionNames + PanelActionNames

  /** The method each known action insists on before reading any field. */
  function RequiredMethod(name: string): string
    requires name in KnownActions
  {
    if name in {"user_add", "user_role", "panel_create"} then "POST"
    else if name in {"user_delete", "panel_delete", "panel_delete_all"} then "DELETE"
    else "GET"
  }

  /** The action named in the body when that is truthy, otherwise the one
      named in the query string. */
  function ActionField(req: Request): Field {
    if req.body.Some? && Truthy(Get(req.body.value, "action")) then Get(req.body.value, "action")
    else Get(req.query, "action")
  }

  /** The account half of the dispatch table. */
  function UserRoute(name: string, req: Request, s: Store, env: Env): (r: Reply)
    requires name in UserActionNames
    // An error answer carries only a message.
    ensures r.response.status != 200 ==> r.response.payload == ErrorBody
    ensures r.response.status != 200 ==> r.store == s
    ensures r.response.status in {200, 400, 404, 405, 500}
    ensures WellFormed(s) ==> WellFormed(r.store)
    ensures BalancesNonNegative(s) ==> BalancesNonNegative(r.store)
    ensures UsernamesUnique(s) ==> UsernamesUnique(r.store)
  {
    if name == "user_add" then UserAdd(req, s, env.now)
    else if name == "user_delete" then UserDelete(req, s)
    else if name == "user_info" then UserInfo(req, s)
    else if name == "user_info_all" then UserInfoAll(req, s)
    else UserRole(req, s)
  }

  /** The panel half of the dispatch table. `panel_create` is declared to
      take `(req, res)` but is called with no arguments, so reading
      `req.method` throws and the outer catch answers 500 whatever the
      request. */
  ghost function PanelRoute(name: string, req: Request, s: Store, env: Env): (r: Reply)
    requires name in PanelActionNames
    // An error answer carries only a message.
    ensures r.response.status != 200 ==> r.response.payload == ErrorBody
    ensures r.response.status != 200 ==> r.store == s
    ensures r.response.status in {200, 400, 404, 405, 500}
    ensures WellFormed(s) ==> WellFormed(r.store)
    ensures BalancesNonNegative(s) ==> BalancesNonNegative(r.store)
    ensures UsernamesUnique(s) ==> UsernamesUnique(r.store)
  {
    if name == "panel_health" then PanelHealth(req, s, env.health)
    else if name == "panel_create" then Reply(Error(500), s)
    else if name == "panel_delete" then PanelDelete(req, s, env.remoteDeleteOk)
    else if name == "panel_delete_all" then PanelDeleteAll(req, s)
    else PanelCurrent(req, s)
  }

  /** The handler: read the action, look it up, run it. */
  ghost function Dispatch(req: Request, s: Store, env: Env): (r: Reply)
    // Error answers carry only a message, except the unknown-action one.
    ensures r.response.status != 200 ==> r.response.payload == ErrorBody || r.response.payload.UnknownAction?
    ensures !Truthy(ActionField(req)) ==> r == Reply(Error(400), s)
    ensures Truthy(ActionField(req)) && KeyText(ActionField(req)) !in KnownActions ==>
      r == Reply(Response(404, UnknownAction(KeyText(ActionField(req)))), s)
    // Failures never touch the store.
    ensures r.response.status != 200 ==> r.store == s
    // The 402, 403 and 409 answers all live in the unreachable panel_create body.
    ensures r.response.status in {200, 400, 404, 405, 500}
    ensures WellFormed(s) ==> WellFormed(r.store)
    ensures BalancesNonNegative(s) ==> BalancesNonNegative(r.store)
    ensures UsernamesUnique(s) ==> UsernamesUnique(r.store)
  {
    var action := ActionField(req);
    if !Truthy(action) then Reply(Error(400), s)
    else
      var name := KeyText(action);
      if name in UserActionNames then
        UserRoute(name, req, s, env)
      else if name in PanelActionNames then
        PanelRoute(name, req, s, env)
      else Reply(Response(404, UnknownAction(name)), s)
  }

  /** The action named by a request, when it names one of the table. */
  predicate Names(req: Request, name: string) {
    Truthy(ActionField(req)) && KeyText(ActionField(req)) == name
  }

  /** A known action runs its own handler on the request, store and
      environment, so each handler's answers are the endpoint's answers. */
  lemma DispatchRuns(req: Request, s: Store, env: Env, name: string)
    requires name in KnownActions && name != "panel_create" && Names(req, name)
    ensures name == "user_add" ==> Dispatch(req, s, env) == UserAdd(req, s, env.now)
    ensures name == "user_delete" ==> Dispatch(req, s, env) == UserDelete(req, s)
    ensures name == "user_info" ==> Dispatch(req, s, env) == UserInfo(req, s)
    ensures name == "user_info_all" ==> Dispatch(req, s, env) == UserInfoAll(req, s)
    ensures name == "user_role" ==> Dispatch(req, s, env) == UserRole(req, s)
    ensures name == "panel_health" ==> Dispatch(req, s, env) == PanelHealth(req, s, env.health)
    ensures name == "panel_delete" ==> Dispatch(req, s, env) == PanelDelete(req, s, env.remoteDeleteOk)
    ensures name == "panel_delete_all" ==> Dispatch(req, s, env) == PanelDeleteAll(req, s)
    ensures name == "panel_current" ==> Dispatch(req, s, env) == PanelCurrent(req, s)
  {
  }

  /** Every reachable action checks the method before any field: a wrong
      method is 405 with the store untouched, whatever the body holds. */
  lemma MethodCheckedFirst(req: Request, s: Store, env: Env, name: string)
    requires name in KnownActions && name != "panel_create"
    requires Names(req, name) && req.verb != RequiredMethod(name)
    ensures Dispatch(req, s, env).response == Error(405)
    ensures Dispatch(req, s, env).store == s
  {
  }

  /** As deployed, `panel_create` answers 500 to every request and changes
      nothing, so no balance is ever charged. */
  lemma PanelCreateUnreachable(req: Request, s: Store, env: Env)
    requires Names(req, "panel_create")
    ensures Dispatch(req, s, env) == Reply(Error(500), s)
  {
  }

  /** A missing user is a thrown error: `user_delete`, `user_info` and
      `user_role` answer 500, never their 404. */
  lemma MissingUserIs500(req: Request, s: Store, env: Env, name: string)
    requires name in {"user_delete", "user_info", "user_role"}
    requires Names(req, name) && req.verb == RequiredMethod(name)
    requires name != "user_info" ==> req.body.Some?
    requires
      var fields := if name == "user_info" then req.query else req.body.value;
      && Get(fields, "email").Text? && Get(fields, "email").s != ""
      && Get(fields, "email").s !in s.users
      && (name == "user_role" ==> Truthy(Get(fields, "role")))
    ensures Dispatch(req, s, env) == Reply(Error(500), s)
  {
  }

  /** A requester who is not an admin gets 500 from `panel_delete_all`,
      not 403, and nothing is deleted. */
  lemma NonAdminDeleteAllIs500(req: Request, s: Store, env: Env)
    requires Names(req, "panel_delete_all") && req.verb == "DELETE" && req.body.Some?
    requires Get(req.body.value, "email").Text? && Get(req.body.value, "email").s != ""
    requires !IsAdmin(s, Get(req.body.value, "email").s)
    ensures Dispatch(req, s, env) == Reply(Error(500), s)
  {
  }

  /** An admin's `panel_delete_all` empties every user's panels, keeps the
      users, and reports the number of panels they held. */
  lemma AdminDeleteAll(req: Request, s: Store, env: Env)
    requires Names(req, "panel_delete_all") && req.verb == "DELETE" && req.body.Some?
    requires Get(req.body.value, "email").Text? && Get(req.body.value, "email").s != ""
    requires IsAdmin(s, Get(req.body.value, "email").s)
    ensures
      var r := Dispatch(req, s, env);
      && r.response == Response(200, PanelsDeleted(PanelTotal(s, s.users.Keys)))
      && r.store.users == s.users
      && (forall e :: e in s.users ==> PanelsOf(r.store, e) == map[])
  {
  }

  /** In a well-formed store `user_info_all` never answers "no users". */
  lemma EmailListNever404(req: Request, s: Store, env: Env)
    requires WellFormed(s) && Names(req, "user_info_all")
    ensures Dispatch(req, s, env).response.status != 404
  {
  }
}

=== FILE: store.dfy ===
/** The document store the handler works on: a `users` collection keyed by
    email, and under each email a `panels` subcollection keyed by the
    decimal text of the panel's server id. The two are kept apart because a
    subcollection outlives the deletion of its parent document. */
module Store {
  import opened Common

  /** Milliseconds in a day: one unit of `activeDays`. */
  const DayMs: int := 86400000
  /** Balance charged to a non-admin for one panel. */
  const PanelCost: int := 3000
  /** Most deletions one store batch may carry. */
  const BatchSize: int := 500
  const AdminRole: string := "admin"
  const DefaultRole: string := "user"

  type Email = string

  /** A user document. `role` is "" when the field is missing, `money` is None
      when missing or null, `expireAt` is None when missing; `expireAt` is
      in milliseconds since the epoch. */
  datatype User = User(
    email: string,
    password: string,
    role: string,
    money: Option<int>,
    expireAt: Option<int>)

  /** A panel document, as returned by the provisioning service. `serverId`
      and `userId` are `Number()` of those fields, None standing for NaN. */
  datatype Panel = Panel(serverId: Option<int>, userId: Option<int>, username: string)

  type PanelMap = map<string, Panel>

  datatype Store = Store(users: map<Email, User>, panels: map<Email, PanelMap>)

  /** `getCurrentPanels`: the `panels` subcollection under an email, each
      document under its id; empty when it has no documents, whether or
      not the user document exists. */
  function PanelsOf(s: Store, e: Email): (r: PanelMap)
    ensures forall k :: k in r ==> e in s.panels && k in s.panels[e] && r[k] == s.panels[e][k]
    ensures e in s.panels ==> r == s.panels[e]
  {
    if e in s.panels then s.panels[e] else map[]
  }

  predicate IsAdmin(s: Store, e: Email) {
    e in s.users && s.users[e].role == AdminRole
  }

  /** Every user document sits under a non-empty key equal to its own
      `email` field, as `addOrUpdateUser` writes it. */
  predicate WellFormed(s: Store) {
    forall e :: e in s.users ==> e != "" && s.users[e].email == e
  }

  /** Within one user's panels no two documents share a username: the
      duplicate check of panel creation keeps it. */
  predicate UsernamesUnique(s: Store) {
    forall e, k1, k2 :: e in s.panels && k1 in s.panels[e] && k2 in s.panels[e] && k1 != k2 ==>
      s.panels[e][k1].username != s.panels[e][k2].username
  }

  /** No stored balance is negative. */
  predicate BalancesNonNegative(s: Store) {
    forall e :: e in s.users && s.users[e].money.Some? ==> s.users[e].money.value >= 0
  }

  /** `update({ money })` on an existing user document. */
  function SetMoney(s: Store, e: Email, money: Option<int>): (r: Store)
    requires e in s.users
    ensures r.users.Keys == s.users.Keys && r.panels == s.panels
    ensures r.users[e] == s.users[e].(money := money)
    ensures forall x :: x in s.users && x != e ==> r.users[x] == s.users[x]
  {
    s.(users := s.users[e := s.users[e].(money := money)])
  }

  /** Writing back the balance a user already has changes nothing: the
      compensating writes of panel creation rely on this. */
  lemma SetMoneyUnchanged(s: Store, e: Email)
    requires e in s.users
    ensures SetMoney(s, e, s.users[e].money) == s
  {
    assert s.users[e].(money := s.users[e].money) == s.users[e];
    assert s.users[e := s.users[e]] == s.users;
  }
}

=== FILE: user_actions.dfy ===
/** The user actions of the dispatch table: `user_add`, `user_delete`,
    `user_info`, `user_info_all` and `user_role`. Each checks the method,
    then the fields, then calls the account function; whatever that
    function throws reaches the router's catch-all and becomes 500. */
module UserActions {
  import opened Common
  import opened JsValues
  import opened Store
  import opened Ledger
  import opened Http

  /** `activeDays` as validated by the router: a number, or not supplied. */
  function DaysArg(f: Field): Option<int> {
    if f.Num? then Some(f.n) else None
  }

  /** `money` as validated by the router: null, a number, or not supplied. */
  function MoneyOf(f: Field): MoneyArg {
    match f
    case Null => NullMoney
    case Num(n) => Amount(n)
    case _ => Omitted
  }

  /** `activeDays` is supplied (neither null nor undefined) but is not a
      positive number. */
  predicate BadDays(f: Field) {
    !Nullish(f) && (!f.Num? || f.n <= 0)
  }

  /** `money` is supplied (neither null nor undefined) but is not a
      non-negative number. */
  predicate BadMoney(f: Field) {
    !Nullish(f) && (!f.Num? || f.n < 0)
  }

  function UserAdd(req: Request, s: Store, now: nat): (r: Reply)
    // An error answer carries only a message.
    ensures r.response.status != 200 ==> r.response.payload == ErrorBody
    ensures req.verb != "POST" ==> r == Reply(Error(405), s)
    ensures r.response.status == 405 <==> req.verb != "POST"
    ensures r.response.status != 200 ==> r.store == s
    ensures r.response.status == 400 <==>
      && req.verb == "POST" && req.body.Some?
      && var f := req.body.value;
         !Truthy(Get(f, "email")) || BadDays(Get(f, "activeDays")) || BadMoney(Get(f, "money"))
    ensures r.response.status == 200 ==>
      && req.body.Some?
      && var f := req.body.value;
         var money := Get(f, "money");
         var days := Get(f, "activeDays");
      && (Nullish(money) || (money.Num? && money.n >= 0))
      && (Nullish(days) || (days.Num? && days.n > 0))
      && Get(f, "email").Text?
      && var up := AddOrUpdateUser(s, now, Get(f, "email").s, TextOf(Get(f, "password")),
                                   DaysArg(days), TextOf(Get(f, "role")), MoneyOf(money));
         up.Ok? && r == Reply(Response(200, UserSaved(up.value.view)), up.value.store)
    // A valid POST is answered 200 whenever the upsert returns.
    ensures req.verb == "POST" && req.body.Some? ==>
      var f := req.body.value;
      var money := Get(f, "money");
      var days := Get(f, "activeDays");
      (&& !BadDays(days) && !BadMoney(money) && Get(f, "email").Text?
       && AddOrUpdateUser(s, now, Get(f, "email").s, TextOf(Get(f, "password")),
                          DaysArg(days), TextOf(Get(f, "role")), MoneyOf(money)).Ok?)
      ==> r.response.status == 200
    ensures r.response.status in {200, 400, 405, 500}
    ensures WellFormed(s) ==> WellFormed(r.store)
    ensures BalancesNonNegative(s) ==> BalancesNonNegative(r.store)
  {
    if req.verb != "POST" then Reply(Error(405), s)
    else if req.body.None? then Reply(Error(500), s)
    else
      var f := req.body.value;
      var email := Get(f, "email");
      var days := Get(f, "activeDays");
      var money := Get(f, "money");
      if !Truthy(email) then Reply(Error(400), s)
      else if BadDays(days) then Reply(Error(400), s)
      else if BadMoney(money) then Reply(Error(400), s)
      else if !email.Text? then Reply(Error(500), s)
      else
        var password := TextOf(Get(f, "password"));
        var role := TextOf(Get(f, "role"));
        match AddOrUpdateUser(s, now, email.s, password, DaysArg(days), role, MoneyOf(money))
        case Err(_) => Reply(Error(500), s)
        case Ok(up) =>
          UpsertPreservesInvariants(s, now, email.s, password, DaysArg(days), role, MoneyOf(money));
          Reply(Response(200, UserSaved(up.view)), up.store)
  }

  function UserDelete(req: Request, s: Store): (r: Reply)
    // An error answer carries only a message.
    ensures r.response.status != 200 ==> r.response.payload == ErrorBody
    ensures req.verb != "DELETE" ==> r == Reply(Error(405), s)
    ensures r.response.status == 405 <==> req.verb != "DELETE"
    ensures r.response.status == 400 <==>
      req.verb == "DELETE" && req.body.Some? && !Truthy(Get(req.body.value, "email"))
    ensures r.response.status != 200 ==> r.store == s
    // A missing user is a thrown error, so 404 never happens.
    ensures r.response.status in {200, 400, 405, 500}
    ensures r.response.status == 200 <==>
      && req.verb == "DELETE" && req.body.Some?
      && var email := Get(req.body.value, "email");
         email.Text? && email.s != "" && email.s in s.users
    ensures r.response.status == 200 ==>
      var e := Get(req.body.value, "email").s;
      r.response.payload == UserDeleted(e)
      && r.store.users == s.users - {e} && r.store.panels == s.panels
  {
    if req.verb != "DELETE" then Reply(Error(405), s)
    else if req.body.None? then Reply(Error(500), s)
    else
      var email := Get(req.body.value, "email");
      if !Truthy(email) then Reply(Error(400), s)
      else if !email.Text? then Reply(Error(500), s)
      else match DeleteUser(s, email.s)
        case Err(_) => Reply(Error(500), s)
        case Ok(st) => Reply(Response(200, UserDeleted(email.s)), st)
  }

  function UserInfo(req: Request, s: Store): (r: Reply)
    // An error answer carries only a message.
    ensures r.response.status != 200 ==> r.response.payload == ErrorBody
    ensures req.verb != "GET" ==> r.response == Error(405)
    ensures r.response.status == 405 <==> req.verb != "GET"
    ensures r.response.status == 400 <==> req.verb == "GET" && !Truthy(Get(req.query, "email"))
    ensures r.store == s
    ensures r.response.status in {200, 400, 405, 500}
    ensures r.response.status == 200 <==>
      && req.verb == "GET"
      && var email := Get(req.query, "email");
         email.Text? && email.s != "" && email.s in s.users
    ensures r.response.status == 200 ==>
      r.response.payload == UserProfile(GetUser(s, Get(req.query, "email").s).value)
  {
    if req.verb != "GET" then Reply(Error(405), s)
    else
      var email := Get(req.query, "email");
      if !Truthy(email) then Reply(Error(400), s)
      else if !email.Text? then Reply(Error(500), s)
      else match GetUser(s, email.s)
        case Err(_) => Reply(Error(500), s)
        case Ok(p) => Reply(Response(200, UserProfile(p)), s)
  }

  function UserInfoAll(req: Request, s: Store): (r: Reply)
    // An error answer carries only a message.
    ensures r.response.status != 200 ==> r.response.payload == ErrorBody
    ensures req.verb != "GET" ==> r.response == Error(405)
    ensures r.response.status == 405 <==> req.verb != "GET"
    ensures r.response.status == 400 <==> req.verb == "GET" && !Truthy(Get(req.query, "email"))
    ensures r.response.status in {200, 400, 404, 405, 500}
    ensures r.response.status == 404 <==>
      && req.verb == "GET"
      && var email := Get(req.query, "email");
      && email.Text? && email.s != "" && IsAdmin(s, email.s)
      && GetAllUserEmails(s, email.s).value == {}
    ensures r.store == s
    // The requester's own document is listed, so in a well-formed store
    // the "no users" 404 cannot happen.
    ensures WellFormed(s) ==> r.response.status != 404
    // An admin's GET is answered 200 whenever some user has an email.
    ensures r.response.status == 200 <==>
      && req.verb == "GET"
      && var email := Get(req.query, "email");
      && email.Text? && email.s != "" && IsAdmin(s, email.s)
      && GetAllUserEmails(s, email.s).value != {}
    // Corollary of the two clauses above: in a well-formed store every
    // admin's GET is answered 200.
    ensures
      (WellFormed(s) && req.verb == "GET" && Get(req.query, "email").Text?
       && IsAdmin(s, Get(req.query, "email").s))
      ==> r.response.status == 200
    ensures r.response.status == 200 ==>
      r.response.payload == EmailList(GetAllUserEmails(s, Get(req.query, "email").s).value)
    ensures WellFormed(s) && r.response.status == 200 ==> r.response.payload == EmailList(s.users.Keys)
  {
    if req.verb != "GET" then Reply(Error(405), s)
    else
      var email := Get(req.query, "email");
      if !Truthy(email) then Reply(Error(400), s)
      else if !email.Text? then Reply(Error(500), s)
      else match GetAllUserEmails(s, email.s)
        case Err(_) => Reply(Error(500), s)
        case Ok(emails) =>
          assert WellFormed(s) ==> emails == s.users.Keys && email.s in emails by {
            if WellFormed(s) { AllEmailsAreTheKeys(s, email.s); }
          }
          if emails == {} then Reply(Error(404), s)
          else Reply(Response(200, EmailList(emails)), s)
  }

  function UserRole(req: Request, s: Store): (r: Reply)
    // An error answer carries only a message.
    ensures r.response.status != 200 ==> r.response.payload == ErrorBody
    ensures req.verb != "POST" ==> r == Reply(Error(405), s)
    ensures r.response.status == 405 <==> req.verb != "POST"
    ensures r.response.status == 400 <==>
      && req.verb == "POST" && req.body.Some?
      && (!Truthy(Get(req.body.value, "email")) || !Truthy(Get(req.body.value, "role")))
    ensures r.response.status != 200 ==> r.store == s
    ensures r.response.status in {200, 400, 405, 500}
    ensures r.response.status == 200 <==>
      && req.verb == "POST" && req.body.Some?
      && var email := Get(req.body.value, "email");
      && email.Text? && email.s != "" && email.s in s.users
      && Truthy(Get(req.body.value, "role"))
    ensures r.response.status == 200 ==>
      var e := Get(req.body.value, "email").s;
      var role := TextOf(Get(req.body.value, "role"));
      && r.response.payload == RoleChanged(e, role)
      && r.store == UpdateUserRole(s, e, role).value
  {
    if req.verb != "POST" then Reply(Error(405), s)
    else if req.body.None? then Reply(Error(500), s)
    else
      var email := Get(req.body.value, "email");
      var role := Get(req.body.value, "role");
      if !Truthy(email) || !Truthy(role) then Reply(Error(400), s)
      else if !email.Text? then Reply(Error(500), s)
      else match UpdateUserRole(s, email.s, TextOf(role))
        case Err(_) => Reply(Error(500), s)
        case Ok(st) => Reply(Response(200, RoleChanged(email.s, TextOf(role))), st)
  }
}
